=== FILE: README.md ===
# Chan-theory segmentation engine (`czsc/analyze.py`) in Dafny

This project models the analysis core of czsc, a Chan-theory ("缠论") market
structure library. The engine consumes a stream of timestamped OHLCV bars and
maintains three layers of structure:

1. **Merged bars** (`NewBar`). A new raw bar is folded into the last merged
   bar when one price range contains the other (`remove_include`). The fold
   keeps the higher high and higher low in an up move, and the lower high and
   lower low in a down move.
2. **Fractals** (`FX`). A top or bottom over three consecutive merged bars
   (`check_fx`). `check_fxs` scans a whole run; from the third fractal on, a
   fractal with the same mark as the last kept one replaces it.
3. **Strokes** (`BI`). `check_bi` builds the first stroke of a run of merged
   bars: from the first fractal to the latest most extreme later fractal of
   the opposite mark, spanning at least seven merged bars, and without strict
   containment between the two fractals' ranges. `create_fake_bis` splits a
   run of fractals into elementary segments (`FakeBI`).

The incremental engine (`CZSC.update`, `CZSC.__update_bi`) is a pure function
`Update: State -> RawBar -> State` over the record
`(barsRaw, barsUbi, biList, maxBiCount)`. A repeated timestamp replaces the
last raw bar and re-merges the last merged bar's constituents. A stroke whose
extreme is broken by the unfinished buffer is retracted, and its bars are
re-searched. Only the newest `maxBiCount` strokes are kept, and raw history
older than the first kept stroke is dropped. `get_sub_span` and `get_sub_bis`
select the strokes of a finer timescale that overlap one stroke of a coarser
timescale.

Prices, volumes and timestamps are `int`. Every record keeps only the fields
the analysis code reads or writes. The files follow the program's layers:

| file | module | contents |
|---|---|---|
| `wrappers.dfy` | `Wrappers` | `Option` |
| `seqs.dfy` | `Seqs` | list comprehension as `Filter`, dropping or overwriting the last element, Python slices `s[:n]` and `s[-n:]` |
| `objects.dfy` | `Objects` | `RawBar`, `NewBar`, `FX`, `FakeBI`, `BI`, the containment test |
| `merge.dfy` | `BarMerge` | `remove_include` |
| `fractal.dfy` | `Fractals` | `check_fx`, `check_fxs` |
| `stroke.dfy` | `Strokes` | `create_fake_bis`, `check_bi` |
| `align.dfy` | `Alignment` | `get_sub_span`, `get_sub_bis` |
| `engine.dfy` | `Engine` | `CZSC.update`, `CZSC.__update_bi`, the constructor's feeding loop |

`Engine.Valid` is the invariant of every reachable engine state:

- once a bar has been seen, the buffer is non-empty;
- every merged bar has constituents;
- every kept stroke is a valid stroke.

These include what the source's `[-1]` indexing relies on: a non-empty
buffer, non-empty constituent lists and non-empty stroke bars. `Update`
requires `Valid` and re-establishes it, so `Run` can feed any list of bars
from `Init`.

Behaviours of the code that are easy to misread:

- A merge keeps the *first* 100 constituents of the merged bar
  (`k2.elements[:100]`), not the most recent ones.
- A double retraction needs *more than* two strokes, and it rebuilds from
  the bars of the second-to-last stroke (`bi_list[-2].bars`).
- Feeding the same bar twice is not idempotent. The repeat re-feeds the last
  merged bar's constituents and re-runs the stroke update, which can retract
  a stroke. No idempotence property is claimed.
- The merged-bar buffer is not free of containment. The merge loop never
  merges the first two raw bars. When those two have equal highs, the
  equal-high test of `remove_include` lets a third bar that nests in the
  second one through unmerged, although `remove_include` assumes `k1` and
  `k2` apart. `Engine.BufferMayNest` gives three such bars. Once the last
  two merged bars are apart, every later step keeps them apart
  (`Engine.FeedKeepsLastPairApart`).
- The alternation repair in `check_fxs` only fires once two fractals are
  kept. The first two fractals may therefore share a mark, and
  `Fractals.FirstPairMayRepeat` exhibits such an input.

## Model

| member | source | states |
|---|---|---|
| BarMerge.Single | czsc/analyze.py:79-82 | A raw bar alone becomes a merged bar with the same time, prices and volume, and itself as sole constituent |
| BarMerge.RemoveInclude | czsc/analyze.py:42-82 | No merge exactly when k1 and k2 have equal highs or k2 and k3 do not nest; the unmerged result is k3 alone. An up merge keeps max high and max low, a down merge min high and min low. The time comes from the bar supplying the kept extreme. Volumes add up. Open and close follow k3's orientation. Constituents: at most 101, ending with k3; the others are exactly those of k2's first 100 whose time differs from k3's (each such one is kept, no other bar appears). low <= high is preserved |
| BarMerge.MergeKeepsSeparation | czsc/analyze.py:42-43 | If k1 and k2 do not contain each other, the bar merged from k2 and k3 does not contain k1 either, and the direction k1 to k2 is kept |
| BarMerge.MergeKeepsOrder | czsc/analyze.py:75 | Two constituents of k2 that a merge keeps stay in their original relative order |
| Fractals.CheckFx | czsc/analyze.py:85-110 | No fractal iff neither the top nor the bottom condition holds. The mark is D iff the bottom condition holds, so a bottom wins over a top. The extreme is k2's high or low, the time is k2's, and the three bars are kept as its `k1`, `k2`, `k3` (the source's `elements`). Strength and the gap-dependent opposite boundary are as coded. On well-formed bars, low < high |
| Fractals.CheckFxs | czsc/analyze.py:112-123 | At most len(bars) - 2 fractals, none for fewer than three bars, and neighbouring fractals alternate from position 1 on |
| Fractals.FractalsAtCenters | czsc/analyze.py:112-123 | Each kept fractal is the check_fx result of a consecutive triple, and the triples' centres strictly increase along the list |
| Fractals.FractalsFromBars | czsc/analyze.py:112-123 | Each kept fractal is well shaped (the extreme on its mark's side) and its three bars are bars of the input |
| Fractals.FirstPairMayRepeat | czsc/analyze.py:119-121 | Some input yields exactly two fractals with the same mark: the pair at positions 0 and 1 is not repaired |
| Fractals.ScanStep | czsc/analyze.py:115-122 | Scanning one more bar either leaves the fractal list unchanged (no fractal at the new triple) or pushes the new triple's fractal |
| Fractals.FractalsFound | czsc/analyze.py:112-123 | The scan returns no fractal iff no consecutive triple is a fractal |
| Fractals.LastTripleKept | czsc/analyze.py:117-122 | When the last triple is a fractal, it is the last fractal returned |
| Fractals.FractalKeptOrReplaced | czsc/analyze.py:115-122 | Every fractal the scan meets stays in the result at the position it was pushed to, unless the next fractal met has the same mark and at least two fractals were kept when it was pushed |
| Strokes.Segment | czsc/analyze.py:26-37 | A segment runs from the first fractal's time to the second's. It is up iff the first fractal is a bottom, taking the bottom's low and the next fractal's high (down symmetrically). Its power is high minus low |
| Strokes.Segments | czsc/analyze.py:26-38 | One segment per consecutive pair of fractals, in order |
| Strokes.CreateFakeBis | czsc/analyze.py:16-39 | With m the number of fractals rounded down to even, there are max(0, m - 1) segments, and segment i joins fractals i and i + 1 |
| Strokes.SegmentsChain | czsc/analyze.py:26-38 | Consecutive segments share endpoints: each ends where the next starts |
| Strokes.ExtremeIndex | czsc/analyze.py:136-149 | Picks the index with the greatest key, and the latest such index when there are ties (the `>=` / `<=` update loop) |
| Strokes.EndFractal | czsc/analyze.py:131-149 | No end fractal iff no later opposite-mark fractal lies beyond the first fractal's extreme. Otherwise the end fractal is such a candidate, no candidate is more extreme, and none after it in the candidate list is as extreme |
| Strokes.MakeBI | czsc/analyze.py:165-180 | A stroke built from two suitable fractals is valid. Its power is the absolute difference of the two extremes, and its high and low are the max and min over the two fractals |
| Strokes.Conclude | czsc/analyze.py:154-183 | With both fractals chosen: no stroke iff the bar window has fewer than 7 bars or the fractals strictly contain each other, in which case the bars are returned unchanged. Otherwise the stroke and every bar from the end fractal's first bar on |
| Strokes.CheckBi | czsc/analyze.py:126-183 | A failed search returns the bars unchanged. A found stroke is valid, and its bars and the returned remainder are drawn from the input |
| Strokes.CheckBiFails | czsc/analyze.py:126-183 | check_bi returns `(None, bars)` exactly in four cases (the division by zero in `change` is left out, see below): fewer than two fractals, no end candidate, a window under seven bars, or strict containment |
| Strokes.CheckBiStroke | czsc/analyze.py:126-183 | A found stroke starts at the first fractal and ends at the end fractal. Its power, high, low, bars, fractals and segments are as coded. The remainder is the bars at or after the end fractal's first bar |
| Alignment.CutsTrim | czsc/analyze.py:206-211 | The head and tail cuts remove at most one stroke at each end, and only a stroke against the requested direction |
| Alignment.GetSubSpan | czsc/analyze.py:186-212 | Every returned stroke is from the input and passes one of the three overlap tests. The result is the order-preserving overlap selection with at most one mismatching stroke cut from each end |
| Alignment.GetSubBis | czsc/analyze.py:215-225 | Equals get_sub_span over the coarse stroke's own start time, end time and direction |
| Seqs.Take | czsc/analyze.py:75 | Python `s[:n]`: the first n elements, or all of them |
| Seqs.KeepLast | czsc/analyze.py:490 | Python `s[-n:]`: a suffix of length min(n, len) for n > 0, and the whole list for n == 0 |
| Engine.Init | czsc/analyze.py:238-241 | The engine before any bar has no raw bars, no buffer and no strokes, and satisfies the state invariant |
| Engine.AddRaw | czsc/analyze.py:464-471 | A bar with a new time is appended. A bar repeating the last time replaces the last raw bar, and the length is unchanged |
| Engine.Step | czsc/analyze.py:475-485 | With fewer than two merged bars the raw bar is appended alone. Otherwise, if remove_include merges, its bar replaces the last merged bar; if not, the raw bar is appended alone. The last merged bar always ends with the raw bar |
| Engine.Feed | czsc/analyze.py:474-486 | The merge loop grows the buffer by at most one bar per raw bar, ends with the last raw bar fed, and leaves all but the last merged bar as they were |
| Engine.FeedConcat | czsc/analyze.py:474-486 | Feeding two runs one after the other equals feeding their concatenation |
| Engine.FeedOne | czsc/analyze.py:475-485 | Feeding a single raw bar is one merge step |
| Engine.StepKeepsLastPairApart | czsc/analyze.py:42-82 | If the last two merged bars do not contain each other, they still do not after one more raw bar, whether it is merged or appended |
| Engine.FeedKeepsLastPairApart | czsc/analyze.py:474-486 | The same after feeding any run of raw bars |
| Engine.BufferMayNest | czsc/analyze.py:44-51 | Three raw bars with (high, low) = (10, 5), (10, 6), (9, 7) give three merged bars, each containing or contained in the next: the first two are never merged, and equal highs skip the merge |
| Engine.Intake | czsc/analyze.py:464-486 | A new timestamp is one merge step of the buffer. A repeated one drops the last merged bar and re-feeds its constituents with the last one replaced by the bar. Only the last two merged bars can differ from before |
| Engine.IntakeRefeeds | czsc/analyze.py:467-486 | A repeated timestamp equals re-feeding the last merged bar's earlier constituents and then one merge step with the new bar |
| Engine.StartFractal | czsc/analyze.py:267-272 | The cold-start anchor has the first fractal's mark, is at least as extreme as every fractal with that mark, and is the latest such in the same-mark list |
| Engine.ColdStart | czsc/analyze.py:261-279 | At most one stroke is found. Without fractals nothing changes. The new buffer is a non-empty selection of the old one |
| Engine.ColdStartAnchors | czsc/analyze.py:273-278 | After a cold start with fractals, no buffered bar is earlier than the anchor fractal's first bar |
| Engine.MaxHigh | czsc/analyze.py:285 | The maximum high of a non-empty run: an upper bound attained by some bar |
| Engine.MinLow | czsc/analyze.py:284 | The minimum low of a non-empty run: a lower bound attained by some bar |
| Engine.BrokenMeans | czsc/analyze.py:284-287 | The last stroke is broken iff some buffered bar from the third on passes its own extreme (above its high when up, below its low when down) |
| Engine.Retract | czsc/analyze.py:281-308 | Removes no stroke when the last stroke holds, two on a two-sided breach with more than two strokes, and one otherwise. An unbroken stroke leaves strokes and buffer untouched |
| Engine.RetractRebuilds | czsc/analyze.py:287-306 | The rebuilt buffer is the retracted stroke's bars followed by the later bars: from bi_list[-2] on a double retraction, from the last stroke on a single one |
| Engine.Attach | czsc/analyze.py:314-315 | Appends the found stroke, if any, and keeps everything before it |
| Engine.Warm | czsc/analyze.py:281-315 | Exactly the strokes the retraction removes are dropped (0, 1 or 2, as Retract decides), and at most one is appended |
| Engine.UpdateBi | czsc/analyze.py:255-315 | No-op below three buffered bars. A cold start yields at most one stroke. Once strokes exist, exactly the retracted strokes are dropped and at most one is appended. Kept strokes stay valid and the buffer stays non-empty |
| Engine.ColdStartSearches | czsc/analyze.py:273-278 | The cold start's stroke and new buffer are check_bi's on the buffer cut at the anchor fractal's first bar |
| Engine.WarmSearches | czsc/analyze.py:281-315 | Once strokes exist, the strokes left by the retraction get the stroke check_bi finds in the rebuilt buffer, if any, and the buffer becomes check_bi's remainder |
| Engine.UpdateBiSearches | czsc/analyze.py:255-315 | __update_bi in terms of check_bi: nothing changes on a cold start without fractals; otherwise the cold start's or the retraction's result followed by check_bi's stroke and remainder |
| Engine.IndexFrom | czsc/analyze.py:493-497 | The first raw bar at or after sdt: every bar before it is earlier than sdt |
| Engine.TrimRaw | czsc/analyze.py:491-498 | The result is a suffix. Every dropped bar is earlier than sdt. If any bar qualifies, the suffix starts at or after sdt. When none does, nothing is dropped |
| Engine.Retain | czsc/analyze.py:490-498 | Keeps the newest maxBiCount strokes and a non-empty suffix of the raw bars holding the newest one. Only bars earlier than the first kept stroke are dropped, and without strokes none is. If any bar is dropped, the kept history starts at or after the first kept stroke's first bar; so when no raw bar reaches it, nothing is dropped |
| Engine.Update | czsc/analyze.py:458-498 | The strokes are the newest maxBiCount of __update_bi's result on the merged buffer, and the buffer is its remainder. The state invariant is preserved. The raw history is a suffix of the appended-or-replaced history ending with the new bar, trimmed only of bars before the first kept stroke, and not at all when no raw bar reaches that stroke |
| Engine.Run | czsc/analyze.py:245-246 | Feeding a list of bars preserves the invariant and the stroke cap, and feeding no bar changes nothing |
| Engine.RunEndsWith | czsc/analyze.py:245-246 | Every bar goes through update: after feeding a non-empty list, the newest raw bar is the last bar of the list |
| Engine.RunConcat | czsc/analyze.py:245-246 | Feeding two lists one after the other equals feeding their concatenation |
| Engine.RunOne | czsc/analyze.py:245-246 | Feeding a one-bar list is one update |

## Left out

- `get_signals` and the constructor's signal snapshot: they depend on pattern classifiers from `czsc/signals`, which is not part of this model.
- `to_echarts` and `open_in_browser`: chart rendering, a file path and a browser launch.
- The `rsq` field of a stroke: a floating-point fit from `czsc/utils/ta`, which is not part of this model.
- The `change` ratio and `round(..., 2)`: floating-point division and rounding. With integer prices, power is the exact absolute difference, and `change` is not modelled.
- Strokes.CheckBi: `change` divides by the first fractal's extreme outside the `try` (czsc/analyze.py:172), so when that extreme is 0 the source raises `ZeroDivisionError` out of `check_bi` and `update`. The model does not compute `change` and returns the stroke there.
- Engine.Update: `maxBiCount` is a `nat`. The source also accepts a negative `max_bi_count == -n`, for which `bi_list[n:]` drops the oldest n strokes instead of keeping the newest ones; that case is not modelled.
- `pd.to_datetime`: timestamps are integers already.
- The printed diagnostics: the over-300-bar message, `traceback.print_exc` and the constructor's prints.
- The `try`/`except` in `check_bi`: on the modelled inputs no exception can be raised inside it, so only its `(None, bars)` result paths are modelled.
- The in-place aliasing in `update`: on a repeated timestamp the source overwrites the last constituent in the list it shares with the last merged bar (czsc/analyze.py:469). The model copies that list instead. In the source the same `NewBar` can also be held by `bi_list[-1].bars` and by its fractals. A single retraction can bring that bar back into `bars_ubi` (czsc/analyze.py:295), and a later merge or repeat then re-feeds the replaced constituent (czsc/analyze.py:75, :469). The model does not reproduce that effect; its retracted strokes keep the bars as they were.
- `freq` and the engine's `symbol`: they are used only in output: `__repr__` (czsc/analyze.py:253), the signal snapshot (czsc/analyze.py:318) and the chart title (czsc/analyze.py:508). Each record carries its own `symbol` through unchanged.
- The object-level wrapper around the engine (`__init__`, `__repr__`): `Engine.Run` from `Engine.Init` stands for the constructor's feeding loop.

=== FILE: align.dfy ===
/** Multi-timescale alignment (`get_sub_span`, `get_sub_bis`): the strokes of
    a finer timescale that overlap one stroke of a coarser timescale. */
module Alignment {
  import opened Objects
  import opened Seqs

  /** The three overlap tests of a stroke against `[startDt, endDt]`: it
      straddles the start, lies inside, or straddles the end. */
  predicate Overlaps(bi: BI, startDt: int, endDt: int) {
    || (bi.fxB.dt > startDt && startDt > bi.fxA.dt)
    || (startDt <= bi.fxA.dt && bi.fxA.dt < bi.fxB.dt && bi.fxB.dt <= endDt)
    || (bi.fxA.dt < endDt && endDt < bi.fxB.dt)
  }

  function Overlapping(bis: seq<BI>, startDt: int, endDt: int): seq<BI> {
    Filter(bis, (bi: BI) => Overlaps(bi, startDt, endDt))
  }

  /** `r` is `sub` with at most one stroke removed from each end, each
      removed stroke running against `d`; a leading stroke against `d` is
      always removed, and so is a trailing one of what remains. */
  predicate TrimmedEnds(sub: seq<BI>, r: seq<BI>, d: Direction) {
    exists lo, hi :: 0 <= lo <= 1 && |sub| - 1 <= hi <= |sub| && lo <= hi && r == sub[lo..hi]
      && (lo == 1 <==> |sub| > 0 && sub[0].direction != d)
      && (hi == |sub| - 1 ==> sub[hi].direction != d)
      && (hi == |sub| && lo < hi ==> sub[hi - 1].direction == d)
  }

  /** Indices into `sub`: where the kept part starts, and where it ends. */
  function HeadCut(sub: seq<BI>, d: Direction): nat {
    if |sub| > 0 && sub[0].direction != d then 1 else 0
  }

  function TailCut(sub: seq<BI>, d: Direction): nat {
    var lo := HeadCut(sub, d);
    if lo < |sub| && sub[|sub| - 1].direction != d then |sub| - 1 else |sub|
  }

  lemma CutsTrim(sub: seq<BI>, d: Direction)
    ensures HeadCut(sub, d) <= TailCut(sub, d) <= |sub|
    ensures TrimmedEnds(sub, sub[HeadCut(sub, d)..TailCut(sub, d)], d)
  {
    var lo, hi := HeadCut(sub, d), TailCut(sub, d);
    assert sub[lo..hi] == sub[lo..hi];
  }

  /** `get_sub_span`: the strokes overlapping `[startDt, endDt]`, in their
      original order, trimmed of a mismatching stroke at either end. */
  function GetSubSpan(bis: seq<BI>, startDt: int, endDt: int, d: Direction): (r: seq<BI>)
    ensures forall i :: 0 <= i < |r| ==> r[i] in bis && Overlaps(r[i], startDt, endDt)
    ensures TrimmedEnds(Overlapping(bis, startDt, endDt), r, d)
  {
    var sub := Overlapping(bis, startDt, endDt);
    CutsTrim(sub, d);
    var r := sub[HeadCut(sub, d)..TailCut(sub, d)];
    assert forall i :: 0 <= i < |r| ==> r[i] in sub;
    r
  }

  /** `get_sub_bis`: the finer strokes under one coarser stroke `bi`, using
      its own start time, end time and direction. */
  function GetSubBis(bis: seq<BI>, bi: BI): (r: seq<BI>)
    ensures r == GetSubSpan(bis, bi.fxA.dt, bi.fxB.dt, bi.direction)
    ensures forall i :: 0 <= i < |r| ==> r[i] in bis && Overlaps(r[i], bi.fxA.dt, bi.fxB.dt)
  {
    var sub := GetSubSpan(bis, bi.fxA.dt, bi.fxB.dt, bi.direction);
    if |sub| == 0 then [] else sub
  }
}

=== FILE: engine.dfy ===
/** The incremental engine (`CZSC.update`, `CZSC.__update_bi`) as a pure
    function from an engine state and a raw bar to the next state. */
module Engine {
  import opened Wrappers
  import opened Objects
  import opened Seqs
  import opened BarMerge
  import opened Fractals
  import opened Strokes

  /** Raw history, the unfinished merged-bar buffer, the finalized strokes
      and the configured cap on retained strokes. */
  datatype State = State(barsRaw: seq<RawBar>, barsUbi: seq<NewBar>, biList: seq<BI>,
                         maxBiCount: nat)

  /** The engine before any bar: nothing seen, nothing found. */
  function Init(maxBiCount: nat): (r: State)
    ensures Valid(r) && r.maxBiCount == maxBiCount
    ensures r.barsRaw == [] && r.barsUbi == [] && r.biList == []
  {
    State([], [], [], maxBiCount)
  }

  predicate HasElements(k: NewBar) {
    |k.elements| > 0
  }

  predicate AllHaveElements(bars: seq<NewBar>) {
    forall i :: 0 <= i < |bars| ==> HasElements(bars[i])
  }

  /** A finalized stroke as the engine keeps it. */
  predicate StrokeKept(bi: BI) {
    ValidStroke(bi) && AllHaveElements(bi.bars)
  }

  predicate AllKept(bis: seq<BI>) {
    forall i :: 0 <= i < |bis| ==> StrokeKept(bis[i])
  }

  /** What holds of every state the engine reaches from `Init`: once a bar
      has been seen the buffer is not empty, every merged bar has
      constituents, and every finalized stroke is a valid stroke. (These
      include what the source's `[-1]` indexing relies on.) */
  predicate Valid(s: State) {
    && (|s.barsRaw| > 0 ==> |s.barsUbi| > 0)
    && AllHaveElements(s.barsUbi)
    && AllKept(s.biList)
  }

  // ---------------------------------------------------------------------
  // Bar intake and containment merging (update, first half)
  // ---------------------------------------------------------------------

  /** A bar with a new timestamp is appended; one with the last timestamp
      replaces the last raw bar (that period is still forming). */
  function AddRaw(raw: seq<RawBar>, bar: RawBar): (r: seq<RawBar>)
    ensures |r| > 0 && Last(r) == bar
    ensures |raw| == 0 || bar.dt != Last(raw).dt ==> r == raw + [bar]
    ensures |raw| > 0 && bar.dt == Last(raw).dt ==>
      |r| == |raw| && forall i :: 0 <= i < |raw| - 1 ==> r[i] == raw[i]
  {
    if |raw| == 0 || bar.dt != Last(raw).dt then raw + [bar] else raw[..|raw| - 1] + [bar]
  }

  /** One raw bar into the buffer: with fewer than two merged bars it stands
      alone, otherwise `RemoveInclude` decides between replacing the last
      merged bar and appending. */
  function Step(ubi: seq<NewBar>, k: RawBar): (r: seq<NewBar>)
    ensures |ubi| <= |r| <= |ubi| + 1
    ensures |r| > 0 && HasElements(Last(r)) && Last(Last(r).elements) == k
    ensures forall i :: 0 <= i < |ubi| - 1 ==> r[i] == ubi[i]
    ensures |r| == |ubi| ==> |ubi| >= 2 && RemoveInclude(ubi[|ubi| - 2], Last(ubi), k).0
    // what is written: a lone bar, the merged bar in place of the last, or the new bar
    ensures |ubi| < 2 ==> r == ubi + [Single(k)]
    ensures |ubi| >= 2 && RemoveInclude(ubi[|ubi| - 2], Last(ubi), k).0 ==>
      r == ReplaceLast(ubi, RemoveInclude(ubi[|ubi| - 2], Last(ubi), k).1)
    ensures |ubi| >= 2 && !RemoveInclude(ubi[|ubi| - 2], Last(ubi), k).0 ==> r == ubi + [Single(k)]
    ensures AllHaveElements(ubi) ==> AllHaveElements(r)
  {
    if |ubi| < 2 then
      ubi + [Single(k)]
    else
      var m := RemoveInclude(ubi[|ubi| - 2], Last(ubi), k);
      if m.0 then ubi[..|ubi| - 1] + [m.1] else ubi + [m.1]
  }

  /** The merge loop over the raw bars to (re)feed, left to right. Only the
      last merged bar is ever rewritten; earlier ones stay as they were. */
  function Feed(ubi: seq<NewBar>, ks: seq<RawBar>): (r: seq<NewBar>)
    ensures |ubi| <= |r| <= |ubi| + |ks|
    ensures |ks| > 0 ==> |r| > 0 && HasElements(Last(r)) && Last(Last(r).elements) == Last(ks)
    ensures forall i :: 0 <= i < |ubi| - 1 ==> r[i] == ubi[i]
    ensures AllHaveElements(ubi) ==> AllHaveElements(r)
    decreases |ks|
  {
    if |ks| == 0 then ubi else Feed(Step(ubi, ks[0]), ks[1..])
  }

  /** Feeding two runs of raw bars one after the other is feeding their
      concatenation: the merge loop has no state besides the buffer. */
  lemma {:induction false} FeedConcat(ubi: seq<NewBar>, a: seq<RawBar>, b: seq<RawBar>)
    ensures Feed(ubi, a + b) == Feed(Feed(ubi, a), b)
    decreases |a|
  {
    if |a| == 0 {
      assert a + b == b;
    } else {
      assert (a + b)[0] == a[0];
      assert (a + b)[1..] == a[1..] + b;
      FeedConcat(Step(ubi, a[0]), a[1..], b);
    }
  }

  /** Feeding one raw bar is one merge step. */
  lemma FeedOne(ubi: seq<NewBar>, k: RawBar)
    ensures Feed(ubi, [k]) == Step(ubi, k)
  {
    assert [k][1..] == [];
  }

  /** The last two merged bars do not contain each other. */
  predicate LastPairApart(bars: seq<NewBar>) {
    |bars| >= 2 && !BarsContain(bars[|bars| - 2], bars[|bars| - 1])
  }

  /** The last two merged bars stay apart once they are: a merge keeps
      the new last bar clear of the one before it, and a bar appended
      without a merge does not nest in the old last bar. */
  lemma StepKeepsLastPairApart(ubi: seq<NewBar>, k: RawBar)
    requires LastPairApart(ubi)
    ensures LastPairApart(Step(ubi, k))
  {
    if RemoveInclude(ubi[|ubi| - 2], Last(ubi), k).0 {
      MergeKeepsSeparation(ubi[|ubi| - 2], Last(ubi), k);
    }
  }

  /** The same for a whole run of raw bars fed to the buffer. */
  lemma {:induction false} FeedKeepsLastPairApart(ubi: seq<NewBar>, ks: seq<RawBar>)
    requires LastPairApart(ubi)
    ensures LastPairApart(Feed(ubi, ks))
    decreases |ks|
  {
    if |ks| > 0 {
      var next := Step(ubi, ks[0]);
      assert Feed(ubi, ks) == Feed(next, ks[1..]);
      StepKeepsLastPairApart(ubi, ks[0]);
      FeedKeepsLastPairApart(next, ks[1..]);
    }
  }

  /** The buffer is not free of containment: the first two raw bars are
      never merged, and when they have equal highs the third bar, nested
      in the second, passes the equal-high test unmerged. Bars with (high,
      low) = (10, 5), (10, 6), (9, 7) give three merged bars, each nesting
      with the next. */
  lemma BufferMayNest()
    ensures var r := Feed([], [RawBar("", 1, 5, 10, 10, 5, 1),
                               RawBar("", 2, 6, 10, 10, 6, 1),
                               RawBar("", 3, 7, 9, 9, 7, 1)]);
      |r| == 3 && BarsContain(r[0], r[1]) && BarsContain(r[1], r[2])
  {
    var b0 := RawBar("", 1, 5, 10, 10, 5, 1);
    var b1 := RawBar("", 2, 6, 10, 10, 6, 1);
    var b2 := RawBar("", 3, 7, 9, 9, 7, 1);
    FeedConcat([], [b0, b1], [b2]);
    FeedConcat([], [b0], [b1]);
    assert [b0, b1] + [b2] == [b0, b1, b2];
    assert [b0] + [b1] == [b0, b1];
    FeedOne([], b0);
    FeedOne([Single(b0)], b1);
    FeedOne([Single(b0), Single(b1)], b2);
  }

  // ---------------------------------------------------------------------
  // Stroke search and revision (__update_bi)
  // ---------------------------------------------------------------------

  /** The cold-start anchor: among the fractals with the first fractal's
      mark, the latest lowest bottom or latest highest top. */
  function StartFractal(fxs: seq<FX>): (r: FX)
    requires |fxs| > 0
    ensures r in fxs && r.mark == fxs[0].mark
    ensures forall i :: 0 <= i < |fxs| && fxs[i].mark == fxs[0].mark ==>
      Key(fxs[i], fxs[0].mark == G) <= Key(r, fxs[0].mark == G)
    ensures var same := Filter(fxs, (x: FX) => x.mark == fxs[0].mark);
      exists k :: 0 <= k < |same| && same[k] == r &&
        forall j :: k < j < |same| ==> Key(same[j], fxs[0].mark == G) < Key(r, fxs[0].mark == G)
  {
    var same := Filter(fxs, (x: FX) => x.mark == fxs[0].mark);
    FilterKeeps(fxs, (x: FX) => x.mark == fxs[0].mark, fxs[0]);
    FilterComplete(fxs, (x: FX) => x.mark == fxs[0].mark);
    var k := ExtremeIndex(same, fxs[0].mark == G);
    assert same[k] in same;
    same[k]
  }

  /** `check_bi` on a rebuilt buffer, seen from the engine: a found stroke
      is one the engine may keep, and the new buffer is a non-empty part of
      the rebuilt one. */
  function Search(rebuilt: seq<NewBar>): (r: (Option<BI>, seq<NewBar>))
    requires |rebuilt| > 0 && AllHaveElements(rebuilt)
    ensures r.0.Some? ==> StrokeKept(r.0.value)
    ensures |r.1| > 0 && AllHaveElements(r.1)
    ensures forall i :: 0 <= i < |r.1| ==> r.1[i] in rebuilt
  {
    CheckBi(rebuilt)
  }

  /** The buffer a cold start searches: the bars from the first bar of the
      anchor fractal on. */
  function ColdTrim(ubi: seq<NewBar>): (r: seq<NewBar>)
    requires AllHaveElements(ubi) && CheckFxs(ubi) != []
    ensures r != [] && AllHaveElements(r)
    ensures forall i :: 0 <= i < |r| ==> r[i] in ubi
  {
    var a := StartFractal(CheckFxs(ubi));
    FractalsFromBars(ubi);
    assert a.k1 in ubi;
    FilterKeeps(ubi, (x: NewBar) => x.dt >= a.k1.dt, a.k1);
    From(ubi, a.k1.dt)
  }

  /** No stroke yet: anchor at the most extreme fractal of the first
      fractal's mark, drop the bars before it, and look for a stroke. */
  function ColdStart(ubi: seq<NewBar>): (r: (seq<BI>, seq<NewBar>))
    requires |ubi| >= 3 && AllHaveElements(ubi)
    ensures |r.0| <= 1
    ensures CheckFxs(ubi) == [] ==> r == ([], ubi)
    ensures r.1 != [] && forall i :: 0 <= i < |r.1| ==> r.1[i] in ubi
    ensures AllKept(r.0) && AllHaveElements(r.1)
  {
    if CheckFxs(ubi) == [] then
      ([], ubi)
    else
      var c := Search(ColdTrim(ubi));
      (if c.0.Some? then [c.0.value] else [], c.1)
  }

  /** After a cold start that found fractals, the buffer holds no bar
      earlier than the first bar of the anchor fractal. */
  lemma ColdStartAnchors(ubi: seq<NewBar>)
    requires |ubi| >= 3 && AllHaveElements(ubi) && CheckFxs(ubi) != []
    ensures var a := StartFractal(CheckFxs(ubi));
      forall i :: 0 <= i < |ColdStart(ubi).1| ==> ColdStart(ubi).1[i].dt >= a.k1.dt
  {
    var a := StartFractal(CheckFxs(ubi));
    var trimmed := ColdTrim(ubi);
    assert trimmed == From(ubi, a.k1.dt);
    var r := ColdStart(ubi).1;
    forall i | 0 <= i < |r|
      ensures r[i].dt >= a.k1.dt
    {
      assert r[i] in trimmed;
    }
  }

  /** Highest high and lowest low of a non-empty run of merged bars. */
  function MaxHigh(bars: seq<NewBar>): (m: int)
    requires |bars| > 0
    ensures forall i :: 0 <= i < |bars| ==> bars[i].high <= m
    ensures exists i :: 0 <= i < |bars| && bars[i].high == m
  {
    if |bars| == 1 then bars[0].high else Max(bars[0].high, MaxHigh(bars[1..]))
  }

  function MinLow(bars: seq<NewBar>): (m: int)
    requires |bars| > 0
    ensures forall i :: 0 <= i < |bars| ==> m <= bars[i].low
    ensures exists i :: 0 <= i < |bars| && bars[i].low == m
  {
    if |bars| == 1 then bars[0].low else Min(bars[0].low, MinLow(bars[1..]))
  }

  /** The buffer without its two oldest bars breaks the last stroke's own
      extreme (its high for an up stroke, its low for a down stroke). */
  predicate Broken(last: BI, ubi: seq<NewBar>)
    requires |ubi| >= 3
  {
    (last.direction == Up && MaxHigh(ubi[2..]) > last.high)
    || (last.direction == Down && MinLow(ubi[2..]) < last.low)
  }

  /** ... and also breaks the opposite extreme. */
  predicate BrokenOpposite(last: BI, ubi: seq<NewBar>)
    requires |ubi| >= 3
  {
    (last.direction == Up && MinLow(ubi[2..]) < last.low)
    || (last.direction == Down && MaxHigh(ubi[2..]) > last.high)
  }

  /** A breach means some bar from the third on goes beyond the extreme. */
  lemma BrokenMeans(last: BI, ubi: seq<NewBar>)
    requires |ubi| >= 3
    ensures Broken(last, ubi) <==>
      (last.direction == Up && exists i :: 2 <= i < |ubi| && ubi[i].high > last.high)
      || (last.direction == Down && exists i :: 2 <= i < |ubi| && ubi[i].low < last.low)
  {
    var tail := ubi[2..];
    assert forall i :: 2 <= i < |ubi| ==> ubi[i] == tail[i - 2];
    if last.direction == Up && MaxHigh(tail) > last.high {
      var j :| 0 <= j < |tail| && tail[j].high == MaxHigh(tail);
      assert ubi[j + 2].high > last.high;
    }
    if last.direction == Down && MinLow(tail) < last.low {
      var j :| 0 <= j < |tail| && tail[j].low == MinLow(tail);
      assert ubi[j + 2].low < last.low;
    }
  }

  /** How many strokes one revision removes: none while the last stroke
      holds, two when both its extremes are broken and more than two
      strokes exist, one otherwise. */
  function RetractCount(bis: seq<BI>, ubi: seq<NewBar>): nat
    requires |bis| > 0 && |ubi| >= 3
  {
    if !Broken(Last(bis), ubi) then 0
    else if BrokenOpposite(Last(bis), ubi) && |bis| > 2 then 2
    else 1
  }

  /** The bars strictly after time `t`. */
  function After(bars: seq<NewBar>, t: int): seq<NewBar> {
    Filter(bars, (x: NewBar) => x.dt > t)
  }

  /** Retraction when strokes exist: nothing when the last stroke holds; the
      last two strokes when both of its extremes are broken and more than
      two strokes exist, rebuilding from the earlier one's bars; otherwise
      the last stroke, rebuilding from its bars. */
  function Retract(bis: seq<BI>, ubi: seq<NewBar>): (r: (seq<BI>, seq<NewBar>))
    requires |bis| > 0 && |ubi| >= 3 && AllKept(bis) && AllHaveElements(ubi)
    ensures r.0 == bis[..|bis| - RetractCount(bis, ubi)]
    ensures !Broken(Last(bis), ubi) ==> r == (bis, ubi)
    ensures |r.1| > 0 && AllHaveElements(r.1)
  {
    var n := |bis|;
    var last := bis[n - 1];
    assert StrokeKept(last);
    if !Broken(last, ubi) then
      (bis, ubi)
    else if BrokenOpposite(last, ubi) && n > 2 then
      var prev := bis[n - 2];
      assert StrokeKept(prev);
      var mid := After(last.bars, Last(prev.bars).dt);
      var tail := After(ubi, Last(last.bars).dt);
      assert forall i :: 0 <= i < |mid| ==> mid[i] in last.bars;
      assert forall i :: 0 <= i < |tail| ==> tail[i] in ubi;
      (bis[..n - 2], prev.bars + mid + tail)
    else
      var tail := After(ubi, Last(last.bars).dt);
      assert forall i :: 0 <= i < |tail| ==> tail[i] in ubi;
      (bis[..n - 1], last.bars + tail)
  }

  /** The rebuilt buffer after a retraction: the retracted strokes' bars,
      followed by the later buffered bars. */
  lemma RetractRebuilds(bis: seq<BI>, ubi: seq<NewBar>)
    requires |bis| > 0 && |ubi| >= 3 && AllKept(bis) && AllHaveElements(ubi)
    ensures Broken(Last(bis), ubi) && BrokenOpposite(Last(bis), ubi) && |bis| > 2 ==>
      var n := |bis|;
      Retract(bis, ubi).1 == bis[n - 2].bars + After(bis[n - 1].bars, Last(bis[n - 2].bars).dt)
                + After(ubi, Last(bis[n - 1].bars).dt)
    ensures Broken(Last(bis), ubi) && !(BrokenOpposite(Last(bis), ubi) && |bis| > 2) ==>
      Retract(bis, ubi).1 == Last(bis).bars + After(ubi, Last(Last(bis).bars).dt)
  {
  }

  /** `after` is `before` with its last `j` strokes removed and possibly one
      stroke appended. */
  predicate DropThenAppend(before: seq<BI>, after: seq<BI>, j: nat) {
    j <= |before| && (after == before[..|before| - j]
      || (|after| == |before| - j + 1 && after[..|before| - j] == before[..|before| - j]))
  }

  /** One `__update_bi` call retracts at most two strokes and appends at most one. */
  predicate Revision(before: seq<BI>, after: seq<BI>) {
    DropThenAppend(before, after, 0) || DropThenAppend(before, after, 1) || DropThenAppend(before, after, 2)
  }

  /** Appending the stroke `check_bi` found, if any. */
  function Attach(kept: seq<BI>, found: Option<BI>): (r: seq<BI>)
    requires AllKept(kept) && (found.Some? ==> StrokeKept(found.value))
    ensures AllKept(r)
    ensures found.None? ==> r == kept
    ensures found.Some? ==> |r| == |kept| + 1 && r[..|kept|] == kept && Last(r) == found.value
  {
    if found.Some? then kept + [found.value] else kept
  }

  lemma KeptPrefix(bis: seq<BI>, k: nat)
    requires AllKept(bis) && k <= |bis|
    ensures AllKept(bis[..k])
  {
  }

  lemma AttachRevises(bis: seq<BI>, j: nat, found: Option<BI>)
    requires j <= 2 && j <= |bis| && AllKept(bis[..|bis| - j])
    requires found.Some? ==> StrokeKept(found.value)
    ensures DropThenAppend(bis, Attach(bis[..|bis| - j], found), j)
    ensures Revision(bis, Attach(bis[..|bis| - j], found))
  {
  }

  /** `__update_bi` once strokes exist: retract, then search again. */
  function Warm(bis: seq<BI>, ubi: seq<NewBar>): (r: (seq<BI>, seq<NewBar>))
    requires |bis| > 0 && |ubi| >= 3 && AllKept(bis) && AllHaveElements(ubi)
    ensures DropThenAppend(bis, r.0, RetractCount(bis, ubi)) && Revision(bis, r.0)
    ensures AllKept(r.0) && AllHaveElements(r.1) && |r.1| > 0
  {
    var rt := Retract(bis, ubi);
    var c := Search(rt.1);
    KeptPrefix(bis, |bis| - RetractCount(bis, ubi));
    AttachRevises(bis, RetractCount(bis, ubi), c.0);
    (Attach(rt.0, c.0), c.1)
  }

  /** `__update_bi`: nothing with fewer than three buffered bars, the
      cold-start search while no stroke exists, the revising search after. */
  function UpdateBi(bis: seq<BI>, ubi: seq<NewBar>): (r: (seq<BI>, seq<NewBar>))
    requires AllKept(bis) && AllHaveElements(ubi) && |ubi| > 0
    ensures |ubi| < 3 ==> r == (bis, ubi)
    ensures Revision(bis, r.0)
    ensures |bis| == 0 ==> |r.0| <= 1
    ensures |ubi| >= 3 && |bis| > 0 ==> DropThenAppend(bis, r.0, RetractCount(bis, ubi))
    ensures AllKept(r.0) && AllHaveElements(r.1) && |r.1| > 0
  {
    if |ubi| < 3 then
      (bis, ubi)
    else if |bis| == 0 then
      ColdStart(ubi)
    else
      Warm(bis, ubi)
  }

  /** The cold start's stroke and buffer are `check_bi`'s on the buffer cut
      at the anchor fractal's first bar. */
  lemma ColdStartSearches(ubi: seq<NewBar>)
    requires |ubi| >= 3 && AllHaveElements(ubi) && CheckFxs(ubi) != []
    ensures var c := CheckBi(From(ubi, StartFractal(CheckFxs(ubi)).k1.dt));
      && ColdStart(ubi).1 == c.1
      && ColdStart(ubi).0 == (if c.0.Some? then [c.0.value] else [])
  {
    assert ColdTrim(ubi) == From(ubi, StartFractal(CheckFxs(ubi)).k1.dt);
  }

  /** Once strokes exist, the search runs `check_bi` on the buffer rebuilt by
      the retraction, and appends the stroke it finds to the strokes kept. */
  lemma WarmSearches(bis: seq<BI>, ubi: seq<NewBar>)
    requires |bis| > 0 && |ubi| >= 3 && AllKept(bis) && AllHaveElements(ubi)
    ensures var rt := Retract(bis, ubi);
      && Warm(bis, ubi).0 == rt.0 + (if CheckBi(rt.1).0.Some? then [CheckBi(rt.1).0.value] else [])
      && Warm(bis, ubi).1 == CheckBi(rt.1).1
  {
  }

  /** `__update_bi` in terms of `check_bi`: the cold start searches the
      anchored buffer; afterwards the strokes left by the retraction get at
      most the one stroke `check_bi` finds in the rebuilt buffer, and the
      buffer becomes its remainder. */
  lemma UpdateBiSearches(bis: seq<BI>, ubi: seq<NewBar>)
    requires AllKept(bis) && AllHaveElements(ubi) && |ubi| >= 3
    ensures |bis| == 0 && CheckFxs(ubi) == [] ==> UpdateBi(bis, ubi) == (bis, ubi)
    ensures |bis| == 0 && CheckFxs(ubi) != [] ==>
      var c := CheckBi(From(ubi, StartFractal(CheckFxs(ubi)).k1.dt));
      UpdateBi(bis, ubi) == (if c.0.Some? then [c.0.value] else [], c.1)
    ensures |bis| > 0 ==>
      var rt := Retract(bis, ubi);
      UpdateBi(bis, ubi) == (rt.0 + (if CheckBi(rt.1).0.Some? then [CheckBi(rt.1).0.value] else []), CheckBi(rt.1).1)
  {
    if |bis| == 0 && CheckFxs(ubi) != [] {
      ColdStartSearches(ubi);
    }
    if |bis| > 0 {
      WarmSearches(bis, ubi);
    }
  }

  // ---------------------------------------------------------------------
  // Retention and the full update
  // ---------------------------------------------------------------------

  /** The index of the first raw bar at or after `sdt`, or `|raw|`. */
  function IndexFrom(raw: seq<RawBar>, sdt: int): (i: nat)
    ensures i <= |raw|
    ensures forall j :: 0 <= j < i ==> raw[j].dt < sdt
    ensures i < |raw| ==> raw[i].dt >= sdt
  {
    if |raw| == 0 then 0 else if raw[0].dt >= sdt then 0 else 1 + IndexFrom(raw[1..], sdt)
  }

  /** Drop the raw bars before the first one at or after `sdt`; when no bar
      qualifies the source's index stays 0 and nothing is dropped. */
  function TrimRaw(raw: seq<RawBar>, sdt: int): (r: seq<RawBar>)
    ensures |r| <= |raw| && r == raw[|raw| - |r|..]
    ensures forall j :: 0 <= j < |raw| - |r| ==> raw[j].dt < sdt
    ensures |r| < |raw| || (exists j :: 0 <= j < |raw| && raw[j].dt >= sdt) ==> |r| > 0 && r[0].dt >= sdt
    ensures |raw| > 0 ==> |r| > 0
  {
    var i := IndexFrom(raw, sdt);
    if i == |raw| then raw else raw[i..]
  }

  /** The first half of `CZSC.update`: a new bar is fed on its own; a bar
      repeating the last timestamp replaces the last constituent of the
      last merged bar, which is dropped and its constituents re-fed. Only
      the last two merged bars can change. */
  function Intake(s: State, bar: RawBar): (r: seq<NewBar>)
    requires Valid(s)
    ensures |r| > 0 && AllHaveElements(r) && Last(Last(r).elements) == bar
    ensures |r| >= |s.barsUbi| - 1 && forall i :: 0 <= i < |s.barsUbi| - 2 ==> r[i] == s.barsUbi[i]
    // a new timestamp is one merge step of the buffer
    ensures |s.barsRaw| == 0 || bar.dt != Last(s.barsRaw).dt ==> r == Step(s.barsUbi, bar)
    // a repeated one drops the last merged bar and re-feeds its constituents,
    // the last of them replaced by the bar
    ensures |s.barsRaw| > 0 && bar.dt == Last(s.barsRaw).dt ==>
      r == Feed(s.barsUbi[..|s.barsUbi| - 1], ReplaceLast(Last(s.barsUbi).elements, bar))
  {
    var isNew := |s.barsRaw| == 0 || bar.dt != Last(s.barsRaw).dt;
    var ubi0 := if isNew then s.barsUbi else s.barsUbi[..|s.barsUbi| - 1];
    assert AllHaveElements(ubi0);
    var lastBars := if isNew then [bar] else ReplaceLast(Last(s.barsUbi).elements, bar);
    FeedOne(ubi0, bar);
    Feed(ubi0, lastBars)
  }

  /** A repeated timestamp acts as re-feeding the last merged bar's earlier
      constituents and then taking the new bar as one merge step. */
  lemma IntakeRefeeds(s: State, bar: RawBar)
    requires Valid(s) && |s.barsRaw| > 0 && bar.dt == Last(s.barsRaw).dt
    ensures var n := |s.barsUbi|; var e := s.barsUbi[n - 1].elements;
      Intake(s, bar) == Step(Feed(s.barsUbi[..n - 1], e[..|e| - 1]), bar)
  {
    var n := |s.barsUbi|;
    var e := s.barsUbi[n - 1].elements;
    assert HasElements(s.barsUbi[n - 1]);
    assert ReplaceLast(e, bar) == e[..|e| - 1] + [bar];
    FeedConcat(s.barsUbi[..n - 1], e[..|e| - 1], [bar]);
    FeedOne(Feed(s.barsUbi[..n - 1], e[..|e| - 1]), bar);
  }

  /** `kept` is what the retention step leaves of the raw history `raw`
      when `bis` are the strokes kept: a non-empty suffix holding the newest
      bar, from which only bars earlier than the first kept stroke's first
      bar were dropped (none without strokes), which starts at or after
      that bar whenever some raw bar does, and which is the whole history
      whenever none does (the source's index then stays 0). */
  predicate RawRetained(raw: seq<RawBar>, kept: seq<RawBar>, bis: seq<BI>) {
    && 0 < |kept| <= |raw| && kept == raw[|raw| - |kept|..] && kept[|kept| - 1] == raw[|raw| - 1]
    && (|bis| == 0 ==> kept == raw)
    && (|bis| > 0 ==>
          var sdt := bis[0].fxA.k1.dt;
          (forall j :: 0 <= j < |raw| - |kept| ==> raw[j].dt < sdt)
          && ((exists j :: 0 <= j < |raw| && raw[j].dt >= sdt) ==> kept[0].dt >= sdt)
          && (|kept| < |raw| ==> kept[0].dt >= sdt))
  }

  lemma TrimRetains(raw: seq<RawBar>, bis: seq<BI>)
    requires |raw| > 0 && |bis| > 0
    ensures RawRetained(raw, TrimRaw(raw, bis[0].fxA.k1.dt), bis)
  {
    var trimmed := TrimRaw(raw, bis[0].fxA.k1.dt);
    assert trimmed[|trimmed| - 1] == raw[|raw| - 1];
  }

  /** The second half of `CZSC.update`: keep the newest `maxBiCount` strokes
      and drop the raw bars older than the first kept stroke's first bar. */
  function Retain(raw: seq<RawBar>, bis: seq<BI>, maxBiCount: nat): (r: (seq<RawBar>, seq<BI>))
    requires |raw| > 0 && AllKept(bis)
    ensures r.1 == KeepLast(bis, maxBiCount) && AllKept(r.1)
    ensures RawRetained(raw, r.0, r.1)
  {
    var kept := KeepLast(bis, maxBiCount);
    assert forall i :: 0 <= i < |kept| ==> kept[i] == bis[|bis| - |kept| + i];
    if |kept| > 0 then
      TrimRetains(raw, kept);
      (TrimRaw(raw, kept[0].fxA.k1.dt), kept)
    else
      (raw, kept)
  }

  /** `CZSC.update`: take the bar in, re-merge, update the strokes, keep the
      newest `maxBiCount` strokes and trim the raw history to them. */
  function Update(s: State, bar: RawBar): (r: State)
    requires Valid(s)
    ensures Valid(r)
    ensures r.maxBiCount == s.maxBiCount
    ensures s.maxBiCount > 0 ==> |r.biList| <= s.maxBiCount
    ensures RawRetained(AddRaw(s.barsRaw, bar), r.barsRaw, r.biList)
    ensures |r.barsRaw| > 0 && Last(r.barsRaw) == bar
    // the strokes and the buffer are those of `__update_bi` on the merged buffer
    ensures var u := UpdateBi(s.biList, Intake(s, bar));
      r.biList == KeepLast(u.0, s.maxBiCount) && r.barsUbi == u.1
  {
    var u := UpdateBi(s.biList, Intake(s, bar));
    var t := Retain(AddRaw(s.barsRaw, bar), u.0, s.maxBiCount);
    State(t.0, u.1, t.1, s.maxBiCount)
  }

  /** Feeding a whole bar list from the empty state, as the constructor does. */
  function Run(s: State, bars: seq<RawBar>): (r: State)
    requires Valid(s)
    ensures Valid(r)
    ensures r.maxBiCount == s.maxBiCount
    ensures |bars| > 0 && s.maxBiCount > 0 ==> |r.biList| <= s.maxBiCount
    ensures |bars| == 0 ==> r == s
    decreases |bars|
  {
    if |bars| == 0 then s else Run(Advance(s, bars[0]), bars[1..])
  }

  /** Every bar goes through `update`: the last one fed is the newest raw
      bar of the result. */
  lemma {:induction false} RunEndsWith(s: State, bars: seq<RawBar>)
    requires Valid(s) && |bars| > 0
    ensures |Run(s, bars).barsRaw| > 0 && Last(Run(s, bars).barsRaw) == Last(bars)
    decreases |bars|
  {
    var t := Advance(s, bars[0]);
    if |bars| > 1 {
      RunEndsWith(t, bars[1..]);
      LastOfRest(bars);
    }
  }

  lemma LastOfRest(bars: seq<RawBar>)
    requires |bars| > 1
    ensures Last(bars[1..]) == Last(bars)
  {
  }

  /** `Update` seen only through what `Run` needs of it. */
  function Advance(s: State, bar: RawBar): (r: State)
    requires Valid(s)
    ensures Valid(r) && r.maxBiCount == s.maxBiCount
    ensures s.maxBiCount > 0 ==> |r.biList| <= s.maxBiCount
    ensures |r.barsRaw| > 0 && Last(r.barsRaw) == bar
  {
    Update(s, bar)
  }

  /** Feeding two lists one after the other equals feeding their
      concatenation: the constructor's loop is a plain fold of `Update`. */
  lemma {:induction false} RunConcat(s: State, a: seq<RawBar>, b: seq<RawBar>)
    requires Valid(s)
    ensures Run(s, a + b) == Run(Run(s, a), b)
    decreases |a|
  {
    if |a| == 0 {
      assert a + b == b;
    } else {
      assert (a + b)[0] == a[0];
      assert (a + b)[1..] == a[1..] + b;
      RunConcat(Advance(s, a[0]), a[1..], b);
    }
  }

  /** Feeding one bar is one `update`. */
  lemma RunOne(s: State, bar: RawBar)
    requires Valid(s)
    ensures Run(s, [bar]) == Update(s, bar)
  {
    assert [bar][1..] == [];
  }
}

=== FILE: fractal.dfy ===
/** Fractal detection (`check_fx`, `check_fxs`): local tops and bottoms over
    three consecutive merged bars, and the scan that keeps the list of
    found fractals (mostly) alternating. */
module Fractals {
  import opened Wrappers
  import opened Objects
  import opened Seqs

  predicate IsTop(k1: NewBar, k2: NewBar, k3: NewBar) {
    k1.high < k2.high && k2.high > k3.high
  }

  predicate IsBottom(k1: NewBar, k2: NewBar, k3: NewBar) {
    k1.low > k2.low && k2.low < k3.low
  }

  /** A fractal's extreme sits on the side its mark names. */
  predicate Shaped(f: FX) {
    (f.mark == G ==> f.fx == f.high == f.k2.high) && (f.mark == D ==> f.fx == f.low == f.k2.low)
  }

  /** The fractal over `k1, k2, k3`, if any. When both the top and the
      bottom condition hold, the bottom is the one returned. */
  function CheckFx(k1: NewBar, k2: NewBar, k3: NewBar): (r: Option<FX>)
    ensures r.None? <==> !IsTop(k1, k2, k3) && !IsBottom(k1, k2, k3)
    ensures r.Some? ==> (r.value.mark == D <==> IsBottom(k1, k2, k3))
    ensures r.Some? ==> Shaped(r.value) && r.value.dt == k2.dt
    ensures r.Some? ==> r.value.k1 == k1 && r.value.k2 == k2 && r.value.k3 == k3
    // a top: strong when k3 closes below k1's low; the lower boundary is
    // k2's low only across a gap and when that does not collapse the range
    ensures r.Some? && r.value.mark == G ==>
      && (r.value.power == Strong <==> k3.close < k1.low)
      && r.value.low == (if k1.high <= k2.low && k2.low != k2.high then k2.low else k1.low)
    // a bottom, symmetrically
    ensures r.Some? && r.value.mark == D ==>
      && (r.value.power == Strong <==> k3.close > k1.high)
      && r.value.high == (if k1.low >= k2.high && k2.high != k2.low then k2.high else k1.high)
    // on well-formed bars a fractal never has high == low
    ensures r.Some? && WellFormed(k1) && WellFormed(k2) ==> r.value.low < r.value.high
  {
    if IsBottom(k1, k2, k3) then
      var power := if k3.close > k1.high then Strong else Weak;
      var high0 := if k1.low < k2.high then k1.high else k2.high;
      var high := if high0 == k2.low then k1.high else high0;
      Some(FX(k1.symbol, k2.dt, D, high, k2.low, k2.low, k1, k2, k3, power))
    else if IsTop(k1, k2, k3) then
      var power := if k3.close < k1.low then Strong else Weak;
      var low0 := if k1.high > k2.low then k1.low else k2.low;
      var low := if low0 == k2.high then k1.low else low0;
      Some(FX(k1.symbol, k2.dt, G, k2.high, low, k2.high, k1, k2, k3, power))
    else
      None
  }

  /** Append a found fractal; from the third fractal on, one with the same
      mark as the last kept fractal replaces it ("most recent wins"). */
  function Push(acc: seq<FX>, f: FX): (r: seq<FX>)
    ensures |r| > 0 && Last(r) == f
    ensures |acc| <= |r| <= |acc| + 1
    ensures forall i :: 0 <= i < |r| - 1 ==> r[i] == acc[i]
  {
    if |acc| >= 2 && f.mark == Last(acc).mark then acc[..|acc| - 1] + [f] else acc + [f]
  }

  /** From position 1 on, neighbouring fractals have different marks. The
      pair at positions 0 and 1 is deliberately not constrained. */
  predicate AlternatesAfterFirst(fxs: seq<FX>) {
    forall i :: 1 <= i < |fxs| - 1 ==> fxs[i].mark != fxs[i + 1].mark
  }

  /** All fractals of a run of merged bars, scanning the triples left to
      right and pushing each one found. */
  function CheckFxs(bars: seq<NewBar>): (fxs: seq<FX>)
    ensures |bars| >= 2 ==> |fxs| <= |bars| - 2
    ensures |bars| < 3 ==> fxs == []
    ensures AlternatesAfterFirst(fxs)
    decreases |bars|
  {
    if |bars| < 3 then []
    else
      var n := |bars|;
      var acc := CheckFxs(bars[..n - 1]);
      match CheckFx(bars[n - 3], bars[n - 2], bars[n - 1])
      case None => acc
      case Some(f) => Push(acc, f)
  }

  /** The repair does not reach the first pair: five bars with a bottom at
      index 1 and another at index 3, and no fractal between them, give two
      kept bottoms in a row. */
  lemma FirstPairMayRepeat()
    ensures exists bars: seq<NewBar> :: |CheckFxs(bars)| == 2 && CheckFxs(bars)[0].mark == CheckFxs(bars)[1].mark
  {
    var lows := [5, 1, 3, 2, 6];
    var highs := [10, 10, 9, 9, 12];
    var bars := seq(5, i requires 0 <= i < 5 => NewBar("", i, 0, 0, highs[i], lows[i], 0, []));
    assert CheckFxs(bars[..2]) == [];
    assert bars[..3][..2] == bars[..2];
    assert CheckFxs(bars[..3]) == [CheckFx(bars[0], bars[1], bars[2]).value];
    assert bars[..4][..3] == bars[..3];
    assert CheckFxs(bars[..4]) == CheckFxs(bars[..3]);
    assert bars[..4] == bars[..|bars| - 1];
    assert CheckFxs(bars) == CheckFxs(bars[..3]) + [CheckFx(bars[2], bars[3], bars[4]).value];
  }

  /** Whether `Push(acc, f)` replaces the last element instead of appending. */
  predicate Replaces(acc: seq<FX>, f: FX) {
    |acc| >= 2 && f.mark == Last(acc).mark
  }

  /** The centre index of the triple each kept fractal came from. */
  ghost function FxCenters(bars: seq<NewBar>): (cs: seq<nat>)
    decreases |bars|
  {
    if |bars| < 3 then []
    else
      var n := |bars|;
      var acc := FxCenters(bars[..n - 1]);
      match CheckFx(bars[n - 3], bars[n - 2], bars[n - 1])
      case None => acc
      case Some(f) =>
        (if Replaces(CheckFxs(bars[..n - 1]), f) then DropLast(acc) else acc) + [n - 2]
  }

  /** `f` is the fractal of the triple centred at index `c`. */
  predicate AtCenter(bars: seq<NewBar>, c: nat, f: FX) {
    1 <= c < |bars| - 1 && CheckFx(bars[c - 1], bars[c], bars[c + 1]) == Some(f)
  }

  /** `cs` gives, in strictly increasing order, the triple of each fractal in `fxs`. */
  predicate LocatedAt(bars: seq<NewBar>, cs: seq<nat>, fxs: seq<FX>) {
    && |cs| == |fxs|
    && (forall j :: 0 <= j < |cs| ==> AtCenter(bars, cs[j], fxs[j]))
    && (forall i, j :: 0 <= i < j < |cs| ==> cs[i] < cs[j])
  }

  lemma AtCenterExtends(bars: seq<NewBar>, k: nat, c: nat, f: FX)
    requires k <= |bars| && AtCenter(bars[..k], c, f)
    ensures AtCenter(bars, c, f)
  {
    assert bars[..k][c - 1] == bars[c - 1] && bars[..k][c] == bars[c] && bars[..k][c + 1] == bars[c + 1];
  }

  /** Appending a fractal located after all others keeps `LocatedAt`. */
  lemma LocatedAppend(bars: seq<NewBar>, cs: seq<nat>, fxs: seq<FX>, f: FX, c: nat)
    requires LocatedAt(bars, cs, fxs) && AtCenter(bars, c, f)
    requires forall j :: 0 <= j < |cs| ==> cs[j] < c
    ensures LocatedAt(bars, cs + [c], fxs + [f])
  {
    var cs', fxs' := cs + [c], fxs + [f];
    forall j | 0 <= j < |cs'|
      ensures AtCenter(bars, cs'[j], fxs'[j])
    {
      if j < |cs| {
        assert cs'[j] == cs[j] && fxs'[j] == fxs[j];
      }
    }
    forall i, j | 0 <= i < j < |cs'|
      ensures cs'[i] < cs'[j]
    {
      assert cs'[i] == cs[i];
    }
  }

  /** One step of the scan keeps `LocatedAt`. */
  lemma LocatedPush(bars: seq<NewBar>, acc: seq<nat>, fxs: seq<FX>, f: FX, c: nat)
    requires LocatedAt(bars, acc, fxs) && AtCenter(bars, c, f)
    requires forall j :: 0 <= j < |acc| ==> acc[j] < c
    ensures LocatedAt(bars, (if Replaces(fxs, f) then DropLast(acc) else acc) + [c], Push(fxs, f))
  {
    if Replaces(fxs, f) {
      var n := |fxs|;
      assert Push(fxs, f) == fxs[..n - 1] + [f];
      assert DropLast(acc) == acc[..n - 1];
      assert LocatedAt(bars, acc[..n - 1], fxs[..n - 1]);
      LocatedAppend(bars, acc[..n - 1], fxs[..n - 1], f, c);
    } else {
      assert Push(fxs, f) == fxs + [f];
      LocatedAppend(bars, acc, fxs, f, c);
    }
  }

  /** Every kept fractal is the fractal of one consecutive triple, and the
      kept fractals come in the order of their triples. */
  lemma {:induction false} FractalsAtCenters(bars: seq<NewBar>)
    ensures LocatedAt(bars, FxCenters(bars), CheckFxs(bars))
    decreases |bars|
  {
    if |bars| >= 3 {
      var n := |bars|;
      var pre := bars[..n - 1];
      FractalsAtCenters(pre);
      var acc := FxCenters(pre);
      var fxs := CheckFxs(pre);
      forall j | 0 <= j < |acc|
        ensures AtCenter(bars, acc[j], fxs[j]) && acc[j] < n - 2
      {
        AtCenterExtends(bars, n - 1, acc[j], fxs[j]);
      }
      assert LocatedAt(bars, acc, fxs);
      match CheckFx(bars[n - 3], bars[n - 2], bars[n - 1])
      case None =>
      case Some(f) =>
        LocatedPush(bars, acc, fxs, f, n - 2);
    }
  }

  /** Each kept fractal is well shaped and is built from bars of the input. */
  lemma FractalsFromBars(bars: seq<NewBar>)
    ensures forall i :: 0 <= i < |CheckFxs(bars)| ==>
      var f := CheckFxs(bars)[i];
      Shaped(f) && f.k1 in bars && f.k2 in bars && f.k3 in bars
  {
    FractalsAtCenters(bars);
    var cs := FxCenters(bars);
    forall i | 0 <= i < |CheckFxs(bars)|
      ensures var f := CheckFxs(bars)[i]; Shaped(f) && f.k1 in bars && f.k2 in bars && f.k3 in bars
    {
      assert AtCenter(bars, cs[i], CheckFxs(bars)[i]);
    }
  }

  // ---------------------------------------------------------------------
  // Completeness of the scan: every fractal found is kept unless replaced
  // ---------------------------------------------------------------------

  /** The fractal of the triple centred at `c`, if any. */
  function FxAt(bars: seq<NewBar>, c: int): Option<FX>
    requires 1 <= c < |bars| - 1
  {
    CheckFx(bars[c - 1], bars[c], bars[c + 1])
  }

  /** No triple centred strictly between `lo` and `hi` is a fractal. */
  predicate NoneBetween(bars: seq<NewBar>, lo: int, hi: int) {
    forall c :: lo < c < hi && 1 <= c < |bars| - 1 ==> FxAt(bars, c).None?
  }

  /** Scanning the first `k` bars is scanning the first `k - 1` and then
      pushing the fractal of the last triple, if any. */
  lemma ScanStep(bars: seq<NewBar>, k: int)
    requires 3 <= k <= |bars|
    ensures FxAt(bars, k - 2).None? ==> CheckFxs(bars[..k]) == CheckFxs(bars[..k - 1])
    ensures FxAt(bars, k - 2).Some? ==>
      CheckFxs(bars[..k]) == Push(CheckFxs(bars[..k - 1]), FxAt(bars, k - 2).value)
  {
    var pre := bars[..k];
    assert pre[..k - 1] == bars[..k - 1];
    assert pre[k - 3] == bars[k - 3] && pre[k - 2] == bars[k - 2] && pre[k - 1] == bars[k - 1];
  }

  lemma {:induction false} ScanEmpty(bars: seq<NewBar>, k: int)
    requires 0 <= k <= |bars|
    ensures CheckFxs(bars[..k]) == [] <==> NoneBetween(bars, 0, k - 1)
    decreases k
  {
    if k >= 3 {
      ScanEmpty(bars, k - 1);
      ScanStep(bars, k);
    }
  }

  /** The scan finds no fractal exactly when no consecutive triple is one. */
  lemma FractalsFound(bars: seq<NewBar>)
    ensures CheckFxs(bars) == [] <==> forall c :: 1 <= c < |bars| - 1 ==> FxAt(bars, c).None?
  {
    assert bars[..|bars|] == bars;
    ScanEmpty(bars, |bars|);
  }

  /** The fractal of the last triple, when there is one, is the last kept. */
  lemma LastTripleKept(bars: seq<NewBar>)
    requires |bars| >= 3 && FxAt(bars, |bars| - 2).Some?
    ensures |CheckFxs(bars)| > 0 && Last(CheckFxs(bars)) == FxAt(bars, |bars| - 2).value
  {
    assert bars[..|bars|] == bars;
    ScanStep(bars, |bars|);
  }

  /** A fractal later replaced by the repair: the next fractal found after
      the one at `c` (at centre `c2`) has the same mark, and at least two
      fractals were kept when the one at `c` was pushed. */
  predicate ReplacedBy(bars: seq<NewBar>, c: int, q: int, f: FX, c2: int) {
    && q >= 1 && 1 <= c < c2 < |bars| - 1
    && FxAt(bars, c2).Some? && FxAt(bars, c2).value.mark == f.mark
    && NoneBetween(bars, c, c2)
  }

  /** Where the fractal `f` pushed at position `q` stands after scanning
      the first `k` bars: still last with nothing found since, kept with
      later fractals after it, or replaced. */
  predicate Tracked(bars: seq<NewBar>, c: int, q: int, f: FX, k: int, fxs: seq<FX>) {
    || (0 <= q && |fxs| == q + 1 && fxs[q] == f && NoneBetween(bars, c, k - 1))
    || (0 <= q < |fxs| - 1 && fxs[q] == f)
    || (exists c2 :: c < c2 < k - 1 && ReplacedBy(bars, c, q, f, c2))
  }

  lemma TrackNone(bars: seq<NewBar>, c: int, q: int, f: FX, k: int, fxs: seq<FX>)
    requires 3 <= k <= |bars| && Tracked(bars, c, q, f, k - 1, fxs) && FxAt(bars, k - 2).None?
    ensures Tracked(bars, c, q, f, k, fxs)
  {
    if exists c2 :: c < c2 < k - 2 && ReplacedBy(bars, c, q, f, c2) {
      var c2 :| c < c2 < k - 2 && ReplacedBy(bars, c, q, f, c2);
      assert c2 < k - 1;
    }
  }

  lemma TrackPush(bars: seq<NewBar>, c: int, q: int, f: FX, k: int, fxs: seq<FX>, g: FX)
    requires 1 <= c && 3 <= k <= |bars| && c < k - 2
    requires Tracked(bars, c, q, f, k - 1, fxs) && FxAt(bars, k - 2) == Some(g)
    ensures Tracked(bars, c, q, f, k, Push(fxs, g))
  {
    if 0 <= q && |fxs| == q + 1 && fxs[q] == f && NoneBetween(bars, c, k - 2) {
      if Replaces(fxs, g) {
        assert ReplacedBy(bars, c, q, f, k - 2);
      } else {
        assert Push(fxs, g) == fxs + [g];
      }
    } else if 0 <= q < |fxs| - 1 && fxs[q] == f {
    } else {
      var c2 :| c < c2 < k - 2 && ReplacedBy(bars, c, q, f, c2);
      assert c2 < k - 1;
    }
  }

  /** The fractal found at `c` is the last one kept right after its triple. */
  lemma TrackStart(bars: seq<NewBar>, c: int, f: FX)
    requires 1 <= c < |bars| - 1 && FxAt(bars, c) == Some(f)
    ensures var fxs := CheckFxs(bars[..c + 2]); Tracked(bars, c, |fxs| - 1, f, c + 2, fxs)
  {
    ScanStep(bars, c + 2);
    var fxs := CheckFxs(bars[..c + 2]);
    assert |fxs| > 0 && fxs[|fxs| - 1] == f;
    assert NoneBetween(bars, c, c + 1);
  }

  /** One more bar scanned keeps the fractal at `c` tracked. */
  lemma TrackStep(bars: seq<NewBar>, c: int, q: int, f: FX, k: int)
    requires 1 <= c && c + 2 < k <= |bars|
    requires Tracked(bars, c, q, f, k - 1, CheckFxs(bars[..k - 1]))
    ensures Tracked(bars, c, q, f, k, CheckFxs(bars[..k]))
  {
    var before := CheckFxs(bars[..k - 1]);
    ScanStep(bars, k);
    if FxAt(bars, k - 2).None? {
      TrackNone(bars, c, q, f, k, before);
    } else {
      TrackPush(bars, c, q, f, k, before, FxAt(bars, k - 2).value);
    }
  }

  lemma {:induction false} KeptOrReplacedUpTo(bars: seq<NewBar>, c: int, f: FX, k: int)
    requires 1 <= c && c + 2 <= k <= |bars| && FxAt(bars, c) == Some(f)
    ensures Tracked(bars, c, |CheckFxs(bars[..c + 2])| - 1, f, k, CheckFxs(bars[..k]))
    decreases k
  {
    if k == c + 2 {
      TrackStart(bars, c, f);
    } else {
      KeptOrReplacedUpTo(bars, c, f, k - 1);
      TrackStep(bars, c, |CheckFxs(bars[..c + 2])| - 1, f, k);
    }
  }

  lemma KeptOrReplacedAll(bars: seq<NewBar>, c: int, f: FX)
    requires 1 <= c < |bars| - 1 && FxAt(bars, c) == Some(f)
    ensures Tracked(bars, c, |CheckFxs(bars[..c + 2])| - 1, f, |bars|, CheckFxs(bars))
  {
    KeptOrReplacedUpTo(bars, c, f, |bars|);
    assert bars[..|bars|] == bars;
  }

  lemma KeptOrReplacedAt(bars: seq<NewBar>, c: int, q: int, f: FX, fxs: seq<FX>)
    requires 1 <= c < |bars| - 1 && FxAt(bars, c) == Some(f)
    requires q == |CheckFxs(bars[..c + 2])| - 1 && fxs == CheckFxs(bars)
    ensures (0 <= q < |fxs| && fxs[q] == f) || (exists c2 :: ReplacedBy(bars, c, q, f, c2))
  {
    KeptOrReplacedAll(bars, c, f);
    TrackEnd(bars, c, q, f, fxs);
  }

  /** Once the whole run is scanned, a tracked fractal is kept or replaced. */
  lemma TrackEnd(bars: seq<NewBar>, c: int, q: int, f: FX, fxs: seq<FX>)
    requires Tracked(bars, c, q, f, |bars|, fxs)
    ensures (0 <= q < |fxs| && fxs[q] == f) || (exists c2 :: ReplacedBy(bars, c, q, f, c2))
  {
  }

  /** Every fractal the scan meets is kept, at the position it was pushed
      to, unless the next fractal met has the same mark and replaces it. */
  lemma FractalKeptOrReplaced(bars: seq<NewBar>, c: int)
    requires 1 <= c < |bars| - 1 && FxAt(bars, c).Some?
    ensures var q := |CheckFxs(bars[..c + 2])| - 1; var fxs := CheckFxs(bars);
      || (0 <= q < |fxs| && fxs[q] == FxAt(bars, c).value)
      || (exists c2 :: ReplacedBy(bars, c, q, FxAt(bars, c).value, c2))
  {
    KeptOrReplacedAt(bars, c, |CheckFxs(bars[..c + 2])| - 1, FxAt(bars, c).value, CheckFxs(bars));
  }
}

=== FILE: merge.dfy ===
/** Containment merging (`remove_include`): a new raw bar is folded into the
    last merged bar when one of the two price ranges holds the other. */
module BarMerge {
  import opened Objects
  import opened Seqs

  /** A raw bar standing alone as a merged bar. */
  function Single(k: RawBar): (r: NewBar)
    ensures r.dt == k.dt && r.high == k.high && r.low == k.low
    ensures r.open == k.open && r.close == k.close && r.vol == k.vol
    ensures r.elements == [k]
  {
    NewBar(k.symbol, k.dt, k.open, k.close, k.high, k.low, k.vol, [k])
  }

  /** Merge step for the last two merged bars `k1`, `k2` and the raw bar
      `k3`. The flag says whether `k3` was absorbed into `k2`; the bar is the
      replacement for `k2` (flag true) or a new bar to append (flag false). */
  function RemoveInclude(k1: NewBar, k2: NewBar, k3: RawBar): (r: (bool, NewBar))
    // no merge when the direction is undecided or the ranges do not nest
    ensures !r.0 <==> k1.high == k2.high || !Contains(k2, k3)
    ensures !r.0 ==> r.1 == Single(k3)
    // up direction: keep the higher high and the higher low
    ensures r.0 && k1.high < k2.high ==>
      r.1.high == Max(k2.high, k3.high) && r.1.low == Max(k2.low, k3.low)
    // down direction: keep the lower high and the lower low
    ensures r.0 && k1.high > k2.high ==>
      r.1.high == Min(k2.high, k3.high) && r.1.low == Min(k2.low, k3.low)
    // the timestamp comes from the bar that supplied the kept extreme
    ensures r.0 && k1.high < k2.high ==> (k2.high > k3.high ==> r.1.dt == k2.dt) && (k2.high <= k3.high ==> r.1.dt == k3.dt)
    ensures r.0 && k1.high > k2.high ==> (k2.low < k3.low ==> r.1.dt == k2.dt) && (k2.low >= k3.low ==> r.1.dt == k3.dt)
    ensures r.0 ==> r.1.vol == k2.vol + k3.vol
    // the synthetic open/close follow the orientation of k3
    ensures r.0 && k3.open > k3.close ==> r.1.open == r.1.high && r.1.close == r.1.low
    ensures r.0 && k3.open <= k3.close ==> r.1.open == r.1.low && r.1.close == r.1.high
    // constituents: at most the first 100 of k2's, none sharing k3's time, then k3
    ensures 1 <= |r.1.elements| <= 101
    ensures Last(r.1.elements) == k3
    ensures forall i :: 0 <= i < |r.1.elements| - 1 ==> r.1.elements[i].dt != k3.dt
    ensures r.0 ==> forall i :: 0 <= i < |r.1.elements| - 1 ==> r.1.elements[i] in Take(k2.elements, 100)
    // ... and every one of those at another time is kept
    ensures r.0 ==> var first := Take(k2.elements, 100);
      forall i :: 0 <= i < |first| && first[i].dt != k3.dt ==> first[i] in r.1.elements
    ensures WellFormed(k2) && RawWellFormed(k3) ==> WellFormed(r.1)
  {
    if k1.high == k2.high || !Contains(k2, k3) then
      (false, Single(k3))
    else
      var up := k1.high < k2.high;
      var high := if up then Max(k2.high, k3.high) else Min(k2.high, k3.high);
      var low := if up then Max(k2.low, k3.low) else Min(k2.low, k3.low);
      var dt := if up then (if k2.high > k3.high then k2.dt else k3.dt)
                else (if k2.low < k3.low then k2.dt else k3.dt);
      var open := if k3.open > k3.close then high else low;
      var close := if k3.open > k3.close then low else high;
      var kept := Filter(Take(k2.elements, 100), (x: RawBar) => x.dt != k3.dt);
      FilterComplete(Take(k2.elements, 100), (x: RawBar) => x.dt != k3.dt);
      (true, NewBar(k3.symbol, dt, open, close, high, low, k2.vol + k3.vol, kept + [k3]))
  }

  /** Merging never creates a containment with the bar before: if `k1` and
      `k2` do not contain each other and `k3` is absorbed into `k2`, the
      merged bar and `k1` still do not contain each other, and the direction
      `k1 -> k2` is kept. */
  lemma MergeKeepsSeparation(k1: NewBar, k2: NewBar, k3: RawBar)
    requires !BarsContain(k1, k2)
    requires RemoveInclude(k1, k2, k3).0
    ensures !BarsContain(k1, RemoveInclude(k1, k2, k3).1)
    ensures (k1.high < k2.high) == (k1.high < RemoveInclude(k1, k2, k3).1.high)
  {
  }

  /** The constituents a merge keeps from `k2` stay in their order: of two
      kept constituents, the earlier one in `k2` comes first. */
  lemma MergeKeepsOrder(k1: NewBar, k2: NewBar, k3: RawBar, i: int, j: int)
    requires RemoveInclude(k1, k2, k3).0
    requires 0 <= i < j < |Take(k2.elements, 100)|
    requires Take(k2.elements, 100)[i].dt != k3.dt && Take(k2.elements, 100)[j].dt != k3.dt
    ensures var e := RemoveInclude(k1, k2, k3).1.elements; var first := Take(k2.elements, 100);
      exists a, b :: 0 <= a < b < |e| - 1 && e[a] == first[i] && e[b] == first[j]
  {
    var first := Take(k2.elements, 100);
    var p := (x: RawBar) => x.dt != k3.dt;
    var kept := Filter(first, p);
    assert RemoveInclude(k1, k2, k3).1.elements == kept + [k3];
    FilterOrder(first, p, i, j);
    var a, b :| 0 <= a < b < |kept| && kept[a] == first[i] && kept[b] == first[j];
    assert (kept + [k3])[a] == first[i] && (kept + [k3])[b] == first[j];
  }
}

=== FILE: objects.dfy ===
/** The records the segmentation engine works on. Only the fields that the
    analysis code reads or writes are kept; prices, volumes and timestamps
    are integers. */
module Objects {

  /** Fractal mark: `G` is a top, `D` is a bottom. */
  datatype Mark = G | D

  datatype Direction = Up | Down

  /** A fractal's strength label. */
  datatype Strength = Strong | Weak

  /** One primitive OHLCV observation. */
  datatype RawBar = RawBar(symbol: string, dt: int, open: int, close: int,
                           high: int, low: int, vol: int)

  /** A bar after containment merging, with the raw bars it absorbed. */
  datatype NewBar = NewBar(symbol: string, dt: int, open: int, close: int,
                           high: int, low: int, vol: int, elements: seq<RawBar>)

  /** A fractal over the three merged bars `k1`, `k2`, `k3` (the source keeps
      them as the list `elements == [k1, k2, k3]`). `fx` is the extreme
      price: `k2.high` for a top, `k2.low` for a bottom. */
  datatype FX = FX(symbol: string, dt: int, mark: Mark, high: int, low: int,
                   fx: int, k1: NewBar, k2: NewBar, k3: NewBar, power: Strength)

  /** An elementary segment between two consecutive fractals. */
  datatype FakeBI = FakeBI(symbol: string, sdt: int, edt: int, direction: Direction,
                           high: int, low: int, power: int)

  /** A finalized stroke from `fxA` to `fxB`. `length` is the number of
      merged bars in `bars`. */
  datatype BI = BI(symbol: string, fxA: FX, fxB: FX, fxs: seq<FX>, fakeBis: seq<FakeBI>,
                   direction: Direction, power: int, high: int, low: int,
                   bars: seq<NewBar>, length: int)

  predicate RawWellFormed(k: RawBar) {
    k.low <= k.high
  }

  predicate WellFormed(k: NewBar) {
    k.low <= k.high
  }

  /** The containment test of the merge rule: either range holds the other,
      boundaries included. */
  predicate Contains(k2: NewBar, k3: RawBar) {
    (k2.high <= k3.high && k2.low >= k3.low) || (k2.high >= k3.high && k2.low <= k3.low)
  }

  /** The same test between two merged bars. */
  predicate BarsContain(a: NewBar, b: NewBar) {
    (a.high <= b.high && a.low >= b.low) || (a.high >= b.high && a.low <= b.low)
  }

  function Max(a: int, b: int): int {
    if a >= b then a else b
  }

  function Min(a: int, b: int): int {
    if a <= b then a else b
  }

  function Abs(a: int): int {
    if a >= 0 then a else -a
  }
}

=== FILE: seqs.dfy ===
/** Sequence helpers shared by the model: Python-style filtering
    (`[x for x in s if p(x)]`), the last element, dropping or overwriting
    it, and Python's `s[-n:]` / `s[:n]` slices. */
module Seqs {

  function Last<T>(s: seq<T>): T
    requires |s| > 0
  {
    s[|s| - 1]
  }

  /** `s` without its last element (Python's `s.pop()`, for its effect);
      the empty list stays empty. */
  function DropLast<T>(s: seq<T>): seq<T> {
    if |s| == 0 then s else s[..|s| - 1]
  }

  /** `s` with its last element overwritten by `x` (Python's `s[-1] = x`). */
  function ReplaceLast<T>(s: seq<T>, x: T): (r: seq<T>)
    requires |s| > 0
    ensures |r| == |s| && Last(r) == x && r[..|s| - 1] == s[..|s| - 1]
  {
    s[..|s| - 1] + [x]
  }

  /** The elements of `s` that satisfy `p`, in their original order. */
  function Filter<T>(s: seq<T>, p: T -> bool): (r: seq<T>)
    ensures |r| <= |s|
    ensures forall i :: 0 <= i < |r| ==> r[i] in s && p(r[i])
  {
    if |s| == 0 then []
    else (if p(s[0]) then [s[0]] else []) + Filter(s[1..], p)
  }

  /** Nothing that passes is lost. (Kept out of `Filter`'s contract, where
      the two directions together would feed each other without end.) */
  lemma {:induction false} FilterKeeps<T>(s: seq<T>, p: T -> bool, x: T)
    requires x in s && p(x)
    ensures x in Filter(s, p)
  {
    if s[0] != x {
      FilterKeeps(s[1..], p, x);
    }
  }

  /** Every element that passes is kept (the universally quantified form of
      `FilterKeeps`, for callers that need it for all indices at once). */
  lemma FilterComplete<T>(s: seq<T>, p: T -> bool)
    ensures forall i :: 0 <= i < |s| && p(s[i]) ==> s[i] in Filter(s, p)
  {
    forall i | 0 <= i < |s| && p(s[i])
      ensures s[i] in Filter(s, p)
    {
      FilterKeeps(s, p, s[i]);
    }
  }

  /** Filtering distributes over concatenation: together with the
      behaviour on one element this pins down the order of the result. */
  lemma {:induction false} FilterConcat<T>(a: seq<T>, b: seq<T>, p: T -> bool)
    ensures Filter(a + b, p) == Filter(a, p) + Filter(b, p)
  {
    if |a| == 0 {
      assert a + b == b;
    } else {
      assert (a + b)[0] == a[0];
      assert (a + b)[1..] == a[1..] + b;
      FilterConcat(a[1..], b, p);
    }
  }

  /** Filtering keeps the relative order of the elements that pass. */
  lemma FilterOrder<T>(s: seq<T>, p: T -> bool, i: int, j: int)
    requires 0 <= i < j < |s| && p(s[i]) && p(s[j])
    ensures exists a, b :: 0 <= a < b < |Filter(s, p)| && Filter(s, p)[a] == s[i] && Filter(s, p)[b] == s[j]
  {
    assert s[..j] + s[j..] == s;
    FilterConcat(s[..j], s[j..], p);
    var pre := Filter(s[..j], p);
    assert s[..j][i] == s[i];
    FilterKeeps(s[..j], p, s[i]);
    var a :| 0 <= a < |pre| && pre[a] == s[i];
    assert s[j..][0] == s[j];
    assert Filter(s[j..], p)[0] == s[j];
    assert Filter(s, p)[a] == s[i] && Filter(s, p)[|pre|] == s[j];
  }

  /** Python's `s[:n]` for `n >= 0`: the first `n` elements, or all of them. */
  function Take<T>(s: seq<T>, n: nat): (r: seq<T>)
    ensures |r| == if |s| <= n then |s| else n
    ensures forall i :: 0 <= i < |r| ==> r[i] == s[i]
  {
    if |s| <= n then s else s[..n]
  }

  /** Python's `s[-n:]` for `n >= 0`. Because `-0 == 0`, `s[-0:]` is the
      whole of `s`, not the empty list. */
  function KeepLast<T>(s: seq<T>, n: nat): (r: seq<T>)
    ensures n == 0 ==> r == s
    ensures n > 0 ==> |r| == if |s| <= n then |s| else n
    ensures s[|s| - |r|..] == r
  {
    if n == 0 || |s| <= n then s else s[|s| - n..]
  }
}

=== FILE: stroke.dfy ===
/** Stroke building (`create_fake_bis`, `check_bi`): from a run of merged
    bars, the first stroke that starts at the first fractal and ends at the
    most extreme later opposite fractal. */
module Strokes {
  import opened Wrappers
  import opened Objects
  import opened Seqs
  import opened Fractals

  /** The elementary segment from `f1` to `f2`, oriented by `f1`'s mark:
      up from a bottom's low to the next fractal's high, down from a top's
      high to the next fractal's low. */
  function Segment(f1: FX, f2: FX): (r: FakeBI)
    ensures r.sdt == f1.dt && r.edt == f2.dt
    ensures r.direction == Up <==> f1.mark == D
    ensures f1.mark == D ==> r.low == f1.low && r.high == f2.high
    ensures f1.mark == G ==> r.high == f1.high && r.low == f2.low
    ensures r.power == r.high - r.low
  {
    if f1.mark == D then FakeBI(f1.symbol, f1.dt, f2.dt, Up, f2.high, f1.low, f2.high - f1.low)
    else FakeBI(f1.symbol, f1.dt, f2.dt, Down, f1.high, f2.low, f1.high - f2.low)
  }

  /** One segment per consecutive pair of `fxs`, in order. */
  function Segments(fxs: seq<FX>): (r: seq<FakeBI>)
    ensures |r| == if |fxs| < 2 then 0 else |fxs| - 1
    ensures forall i :: 0 <= i < |r| ==> r[i] == Segment(fxs[i], fxs[i + 1])
  {
    if |fxs| < 2 then [] else [Segment(fxs[0], fxs[1])] + Segments(fxs[1..])
  }

  /** `create_fake_bis`: an odd-length fractal list loses its last fractal,
      then every consecutive pair becomes one segment. */
  function CreateFakeBis(fxs: seq<FX>): (r: seq<FakeBI>)
    ensures var m := |fxs| - |fxs| % 2; |r| == if m == 0 then 0 else m - 1
    ensures forall i :: 0 <= i < |r| ==> r[i] == Segment(fxs[i], fxs[i + 1])
  {
    var even := if |fxs| % 2 != 0 then fxs[..|fxs| - 1] else fxs;
    assert forall i :: 0 <= i < |even| ==> even[i] == fxs[i];
    Segments(even)
  }

  /** Consecutive segments are joined: each ends where the next begins. */
  lemma SegmentsChain(fxs: seq<FX>)
    ensures var r := CreateFakeBis(fxs); forall i :: 0 <= i < |r| - 1 ==> r[i].edt == r[i + 1].sdt
  {
    var r := CreateFakeBis(fxs);
    forall i | 0 <= i < |r| - 1
      ensures r[i].edt == r[i + 1].sdt
    {
      assert r[i] == Segment(fxs[i], fxs[i + 1]);
      assert r[i + 1] == Segment(fxs[i + 1], fxs[i + 2]);
    }
  }

  /** The ordering key of the extremal choice: the high when looking for the
      highest fractal, the negated low when looking for the lowest. */
  function Key(x: FX, byHigh: bool): int {
    if byHigh then x.high else -x.low
  }

  /** Index of the LAST element with the greatest key: the source's loop
      `if fx.high >= fx_b.high: fx_b = fx` (or `fx.low <= fx_b.low`). */
  function ExtremeIndex(c: seq<FX>, byHigh: bool): (k: nat)
    requires |c| > 0
    ensures k < |c|
    ensures forall j :: 0 <= j < |c| ==> Key(c[j], byHigh) <= Key(c[k], byHigh)
    ensures forall j :: k < j < |c| ==> Key(c[j], byHigh) < Key(c[k], byHigh)
  {
    if |c| == 1 then 0
    else
      var k := ExtremeIndex(c[..|c| - 1], byHigh);
      if Key(c[|c| - 1], byHigh) >= Key(c[k], byHigh) then |c| - 1 else k
  }

  /** A fractal that can end a stroke starting at `a`: opposite mark,
      strictly later, and with its extreme strictly beyond `a`'s. */
  predicate IsEndCandidate(a: FX, x: FX) {
    x.mark != a.mark && x.dt > a.dt && (if a.mark == D then x.fx > a.fx else x.fx < a.fx)
  }

  function EndCandidates(fxs: seq<FX>, a: FX): seq<FX> {
    Filter(fxs, (x: FX) => IsEndCandidate(a, x))
  }

  /** The end fractal for a stroke starting at `fxs[0]`: among the end
      candidates, the latest with the highest high (up) or lowest low (down). */
  function EndFractal(fxs: seq<FX>): (r: Option<FX>)
    requires |fxs| > 0
    ensures r.None? <==> forall i :: 0 <= i < |fxs| ==> !IsEndCandidate(fxs[0], fxs[i])
    ensures r.Some? ==> r.value in fxs && IsEndCandidate(fxs[0], r.value)
    ensures r.Some? ==> forall x :: x in fxs && IsEndCandidate(fxs[0], x) ==>
      Key(x, fxs[0].mark == D) <= Key(r.value, fxs[0].mark == D)
    ensures r.Some? ==> var c := EndCandidates(fxs, fxs[0]);
      exists k :: 0 <= k < |c| && c[k] == r.value &&
        forall j :: k < j < |c| ==> Key(c[j], fxs[0].mark == D) < Key(r.value, fxs[0].mark == D)
  {
    var c := EndCandidates(fxs, fxs[0]);
    FilterComplete(fxs, (x: FX) => IsEndCandidate(fxs[0], x));
    if |c| == 0 then
      None
    else
      var k := ExtremeIndex(c, fxs[0].mark == D);
      assert c[k] in c;
      Some(c[k])
  }

  /** Strict mutual containment of two fractals' price ranges. */
  predicate StrictlyContains(a: FX, b: FX) {
    (a.high > b.high && a.low < b.low) || (a.high < b.high && a.low > b.low)
  }

  /** The merged bars whose time lies in `[lo, hi]`. */
  function Window(bars: seq<NewBar>, lo: int, hi: int): seq<NewBar> {
    Filter(bars, (x: NewBar) => lo <= x.dt <= hi)
  }

  /** The merged bars at or after time `t`. */
  function From(bars: seq<NewBar>, t: int): seq<NewBar> {
    Filter(bars, (x: NewBar) => x.dt >= t)
  }

  /** The fractals whose time lies in `[lo, hi]`. */
  function FxWindow(fxs: seq<FX>, lo: int, hi: int): seq<FX> {
    Filter(fxs, (x: FX) => lo <= x.dt <= hi)
  }

  /** What every stroke that `CheckBi` emits satisfies. */
  predicate ValidStroke(bi: BI) {
    && bi.length == |bi.bars| >= 7
    && bi.fxA.mark != bi.fxB.mark
    && (bi.direction == Up <==> bi.fxA.mark == D)
    && bi.power > 0
    && !StrictlyContains(bi.fxA, bi.fxB)
    && bi.low <= Min(bi.fxA.fx, bi.fxB.fx)
    && Max(bi.fxA.fx, bi.fxB.fx) <= bi.high
  }

  /** The stroke record from `a` to `b`: its price range spans both
      fractals and its power is the distance between their extremes. */
  function MakeBI(a: FX, b: FX, fxsIn: seq<FX>, barsA: seq<NewBar>): (bi: BI)
    requires Shaped(a) && Shaped(b) && IsEndCandidate(a, b)
    requires |barsA| >= 7 && !StrictlyContains(a, b)
    ensures ValidStroke(bi)
    ensures bi.fxA == a && bi.fxB == b && bi.bars == barsA && bi.fxs == fxsIn
    ensures bi.fakeBis == CreateFakeBis(fxsIn)
    ensures bi.power == Abs(b.fx - a.fx)
    ensures bi.high == Max(a.high, b.high) && bi.low == Min(a.low, b.low)
  {
    BI(a.symbol, a, b, fxsIn, CreateFakeBis(fxsIn), if a.mark == D then Up else Down,
       Abs(b.fx - a.fx), Max(a.high, b.high), Min(a.low, b.low), barsA, |barsA|)
  }

  /** The last step of `check_bi` once both fractals are chosen: the span
      and containment tests, then the stroke and the remaining bars. */
  function Conclude(bars: seq<NewBar>, fxs: seq<FX>, a: FX, b: FX): (r: (Option<BI>, seq<NewBar>))
    requires Shaped(a) && Shaped(b) && IsEndCandidate(a, b) && b.k1 in bars
    ensures r.0.None? <==> |Window(bars, a.k1.dt, b.k3.dt)| < 7 || StrictlyContains(a, b)
    ensures r.0.None? ==> r.1 == bars
    ensures r.0.Some? ==>
      && r.0.value == MakeBI(a, b, FxWindow(fxs, a.k1.dt, b.k3.dt), Window(bars, a.k1.dt, b.k3.dt))
      && r.1 == From(bars, b.k1.dt)
    ensures |r.1| > 0
  {
    var barsA := Window(bars, a.k1.dt, b.k3.dt);
    var barsB := From(bars, b.k1.dt);
    if |barsA| >= 7 && !StrictlyContains(a, b) then
      var fxsIn := FxWindow(fxs, a.k1.dt, b.k3.dt);
      FilterKeeps(bars, (x: NewBar) => x.dt >= b.k1.dt, b.k1);
      (Some(MakeBI(a, b, fxsIn, barsA)), barsB)
    else
      (None, bars)
  }

  /** `check_bi`: the first stroke of `bars`, with the merged bars from the
      end fractal on; or no stroke and `bars` unchanged. The exact choice of
      the two fractals and the stroke's fields are stated by `CheckBiStroke`,
      the failure cases by `CheckBiFails`. */
  function CheckBi(bars: seq<NewBar>): (r: (Option<BI>, seq<NewBar>))
    ensures r.0.None? ==> r.1 == bars
    ensures r.0.Some? ==> ValidStroke(r.0.value)
    // nothing is invented: every bar returned came from the input
    ensures r.0.Some? ==> forall i :: 0 <= i < |r.0.value.bars| ==> r.0.value.bars[i] in bars
    ensures forall i :: 0 <= i < |r.1| ==> r.1[i] in bars
    ensures |bars| > 0 ==> |r.1| > 0
  {
    var fxs := CheckFxs(bars);
    if |fxs| < 2 then
      (None, bars)
    else
      match EndFractal(fxs)
      case None => (None, bars)
      case Some(b) =>
        FractalsFromBars(bars);
        assert b in fxs;
        Conclude(bars, fxs, fxs[0], b)
  }

  /** `check_bi` fails in exactly four ways: fewer than two fractals, no end
      candidate, a span under seven merged bars, or strict containment of
      the two fractals' ranges. */
  lemma CheckBiFails(bars: seq<NewBar>)
    ensures |CheckFxs(bars)| < 2 ==> CheckBi(bars).0.None?
    ensures |CheckFxs(bars)| >= 2 && EndFractal(CheckFxs(bars)).None? ==> CheckBi(bars).0.None?
    ensures var fxs := CheckFxs(bars);
      |fxs| >= 2 && EndFractal(fxs).Some? ==>
        var a := fxs[0]; var b := EndFractal(fxs).value;
        (CheckBi(bars).0.None? <==> |Window(bars, a.k1.dt, b.k3.dt)| < 7 || StrictlyContains(a, b))
  {
    var fxs := CheckFxs(bars);
    if |fxs| >= 2 && EndFractal(fxs).Some? {
      var b := EndFractal(fxs).value;
      FractalsFromBars(bars);
      assert b in fxs;
      assert CheckBi(bars) == Conclude(bars, fxs, fxs[0], b);
    }
  }

  /** A successful `check_bi`: the stroke runs from the first fractal to
      the chosen end fractal, its direction follows the first fractal's
      mark, its power is the distance between the two extremes, its bars
      are those between the first bar of `fxA` and the last bar of `fxB`,
      and the remainder is every bar from the first bar of `fxB` on. */
  lemma CheckBiStroke(bars: seq<NewBar>)
    requires CheckBi(bars).0.Some?
    ensures var bi := CheckBi(bars).0.value; var fxs := CheckFxs(bars);
      && |fxs| >= 2
      && bi.fxA == fxs[0]
      && EndFractal(fxs) == Some(bi.fxB)
      && bi.power == Abs(bi.fxB.fx - bi.fxA.fx)
      && bi.high == Max(bi.fxA.high, bi.fxB.high)
      && bi.low == Min(bi.fxA.low, bi.fxB.low)
      && bi.bars == Window(bars, bi.fxA.k1.dt, bi.fxB.k3.dt)
      && bi.fxs == FxWindow(fxs, bi.fxA.k1.dt, bi.fxB.k3.dt)
      && bi.fakeBis == CreateFakeBis(bi.fxs)
      && CheckBi(bars).1 == From(bars, bi.fxB.k1.dt)
  {
    var fxs := CheckFxs(bars);
    var b := EndFractal(fxs).value;
    FractalsFromBars(bars);
    assert b in fxs;
    assert CheckBi(bars) == Conclude(bars, fxs, fxs[0], b);
  }
}

=== FILE: wrappers.dfy ===
/** The optional result: the absent fractal of `check_fx`, the absent stroke
    of `check_bi`, and the absent end fractal of a stroke search. */
module Wrappers {

  datatype Option<+T> = None | Some(value: T)
}
